=== FILE: README.md ===
# dockerclient image/container core, in Dafny

This is a model of the decision logic in `image.go`, a small Go client that manages
Docker images and containers. It covers three parts.

- **Image references** (`ImageNames`, with the Go string functions they use in
  `GoStrings`). `GetFullImageName` returns the name alone when there is no registry.
  Otherwise it returns the registry without one trailing `/`, then one `/`, then
  the name; a registry ending in `//` keeps one of them. `GetImageName` and `GetImageTag` split a name on `:` the way Go's
  `strings.Index` and `strings.Split` do. That includes two quirks: a leading `:` is
  not treated as a separator, and the tag is the second split piece.
- **The registry tag check** (`Registry`). It builds the tag-listing URL, refuses an
  empty registry, and looks the tag up in the returned list without regard to letter
  case.
- **Container lifecycle** (`Containers`, `Waiter`).
  - `CreateContainer` is the create-with-recovery state machine. It runs against a
    scripted engine: the i-th create, pull or remove call gets the i-th reply of its
    script. Every run records the calls it made.
  - `RemoveContainers` is the batch removal that stops at the first failure.
  - `WaitContainerDone` is reduced to the outcome the caller sees for a given
    sequence of status-query replies.

The engine and the registry's HTTP endpoint are parameters; the clock is left out:

- create, pull and remove replies come from scripts;
- removal replies in the batch removal come from a function of (call number, id);
- the registry answer comes from a function from URL to tag list or error;
- status replies come from a sequence.

Go's `(value, error)` returns become a value plus an `Option<string>`, where `None`
is a nil error.

The two recovery branches of `CreateContainer` treat a failed recovery step
differently. A failed pull is returned as the error (image.go:240-242). A failed
force-remove after a name conflict is only logged (image.go:251-253). Control then
falls through to `return res.ID, nil` (image.go:267). `CreateContainer` does what
the code does. `CreateContainerReporting` returns the removal's error instead (see
Findings).

## Model

| member | source | states |
|---|---|---|
| GoStrings.Index | image.go:340 | `strings.Index` for ":": the position of the first `:`, or -1 exactly when there is none; no `:` before it |
| GoStrings.Split | image.go:342 | `strings.Split` on ":": one more piece than there are separators, no piece contains the separator, and joining the pieces with it gives back the input |
| GoStrings.SplitJoin | image.go:342 | Split is the inverse of Join for pieces without the separator (at least one piece) |
| GoStrings.HasSuffix | image.go:30 | `strings.HasSuffix`: the suffix is no longer than the string, and its characters are the string's last ones in order |
| GoStrings.Contains | image.go:236 | `strings.Contains`: a found substring is no longer than the string, and the empty substring is always found (exact occurrence is ContainsIffOccurs) |
| GoStrings.EqualFold | image.go:187 | `strings.EqualFold` with ASCII folding: two strings match exactly when they have equal length and differ only where both characters are the same letter in opposite case (so "exited" matches "EXITED"); equal strings match |
| GoStrings.ContainsIffOccurs | image.go:236 | `strings.Contains` holds exactly when the substring occurs at some position |
| ImageNames.GetFullImageName | image.go:28-36 | With an empty registry the result is the name. Otherwise it is the registry without one trailing `/`, then one `/`, then the name, so a registry ending in `//` keeps one of them. It starts with the registry and ends with the name. |
| ImageNames.FullNameIgnoresTrailingSlash | image.go:28-36 | `host` and `host/` give the same fully qualified reference |
| ImageNames.GetImageName | image.go:339-346 | When the first `:` is past position 0, the result is the non-empty, colon-free text before it. Otherwise it is the input unchanged. It is always a prefix of the input. |
| ImageNames.GetImageTag | image.go:348-355 | When the first `:` is past position 0, the result is the colon-free text right after it, ending at the next `:` or at the end. Otherwise it is the input unchanged. |
| ImageNames.NameAndTagCoincide | image.go:339-355 | With no `:`, or only a leading one, name and tag are both the input string |
| ImageNames.ParseNameTag | image.go:339-355 | Parsing `name:tag` (name non-empty, both colon-free) gives back `name` and `tag` |
| ImageNames.NameTagRoundTrip | image.go:339-355 | A reference with a single `:` past position 0 equals name + ":" + tag |
| ImageNames.TagStopsAtSecondColon | image.go:348-355 | The tag of `name:tag:rest` is `tag`, not `tag:rest`; the name is `name` |
| Registry.UrlFor | image.go:297-301 | The `HasSuffix` branch and the other branch give the same URL: "http://", the registry without one trailing `/`, then "/2/", the bare name, and "/tags/list" |
| Registry.UrlKeepsSecondSlash | image.go:297-298 | A registry ending in `//` loses only one `/`, so the URL contains "//2/" |
| Registry.TagListUrl | image.go:297-302 | The URL is "http://", then the registry without one trailing `/`, then "/2/", the bare image name, and "/tags/list". A registry ending in `//` keeps one of them. |
| Registry.TagListUrlIsQualifiedReference | image.go:297-302 | The URL after "http://" is the fully qualified reference of "2/<bare name>" in that registry, so the same separator rule applies |
| Registry.FindTag | image.go:328-335 | The loop finds a match exactly when some listed tag equals the wanted tag ignoring case |
| Registry.CheckImagesExistInDockerRegistry | image.go:292-335 | Empty registry: (false, the "Docker registry cannot empty" error). Failed fetch: (false, that error). Otherwise a nil error, and true exactly when the name's tag is listed. |
| Containers.CreateContainer | image.go:232-268 | With an empty create script a run makes no call. Otherwise its first call is the create with the caller's arguments. A returned run used at least one create reply. An error always comes with an empty ID. |
| Containers.Classify | image.go:236-248 | The missing-image case holds exactly when the error contains "No such image". The name-conflict case holds exactly when it does not, but contains "is already in use by container". Every other error is unrecognized. |
| Containers.CreateSucceeds | image.go:233-267 | A successful first create returns its ID with a nil error after that single call |
| Containers.CreateRecoversMissingImage | image.go:236-247 | An error containing "No such image" causes exactly one pull of `conf.Image`, even if the error also names a conflict. A failed pull is returned with no retry. A successful pull is followed by the same create again. |
| Containers.CreateRecoversNameConflict | image.go:248-267 | A name-conflict error causes exactly one force-remove of the container name. Success leads to a retry. Failure is swallowed, and the failed create's ID is returned with a nil error. |
| Containers.CreateReturnsUnrecognized | image.go:262-264 | Any other create error is returned unchanged, after that single call |
| Containers.CreateKeepsArguments | image.go:232-268 | Every create in a run uses the caller's name and configurations. Every pull is of `conf.Image`. Every removal is of the container name. |
| Containers.CreateFollowsScript | image.go:232-268 | A returned run reads each script in order, one reply per call. Each script is the replies received followed by what remains unread. |
| Containers.CreateEndsWithoutError | image.go:232-268 | A nil error means the last call was a successful create with that ID, or a failed removal right after a name-conflict create whose ID is returned |
| Containers.CreateEndsWithError | image.go:232-268 | An error comes with an empty ID. It is a failed pull right after a missing-image create, or the unrecognized error of the last create. It is never a removal error. |
| Containers.CreatePullsOnlyForMissingImage | image.go:236-240 | Every pull in a run directly follows a create whose error contains "No such image" |
| Containers.CreateRemovesOnlyOnConflict | image.go:248-251 | Every force-remove in a run directly follows a create whose error names a conflict and no missing image |
| Containers.CreateRetriesOncePerRecovery | image.go:236-261 | A returned run makes exactly one more create than it has successful pulls and removals |
| Containers.ConflictClassified | image.go:236-248 | An error containing "is already in use by container", and nowhere "No such image", is classified as a name conflict |
| Containers.ConflictWithoutCapitalN | image.go:236-248 | An example instance: text without a capital "N" around the marker, as in the engine's "Conflict. The container name ... is already in use by container ...", is classified as a name conflict |
| Containers.RemovalFailureSwallowed | image.go:250-267 | For any name-conflict error and failing removal, the run returns the failed create's ID with a nil error, although no create succeeded |
| Containers.CreateContainerReporting | image.go:248-261 | Corrected create, same first-call and consumption guarantees as `CreateContainer` |
| Containers.ReportingSucceedsOnlyWhenCreated | image.go:232-268 | With removal failures reported, a nil error means the last call was a create that succeeded with the returned ID |
| Containers.ReportingReturnsRemovalError | image.go:250-253 | With removal failures reported, a failed removal after a name conflict is returned as the error |
| Containers.RemoveContainers | image.go:280-290 | Removes ids in list order, one call each. Returns nil exactly when every removal succeeded. Otherwise returns the first failure, and no later id is attempted. |
| Waiter.WaitContainerDone | image.go:172-202 | Still waiting exactly when every reply is a successful non-terminal status. Otherwise the caller gets the error of the deciding reply, or nil if that reply's status is "done" or "exited" in any case. Every earlier reply was a successful non-terminal status. |
| Waiter.WaitIgnoresLaterReplies | image.go:177-201 | Once resolved, extra replies do not change the caller's outcome |
| Waiter.ErrorCheckedBeforeStatus | image.go:181-189 | A failed query ends the wait with its error, even if it also carries a terminal status |
| Waiter.CreatedRunningExited | image.go:187-193 | "created", "running", "EXITED" resolves with nil at the third query, after two sleeps |

## Left out

- Docker client calls are not modelled: `ImageList`, `ImageBuild`, `ImageTag`, `ImagePull`, `ImagePush`, `ImageRemove`, `ContainerInspect`, `ContainerStart`, `ContainerLogs`, `ContainerCreate` and `ContainerRemove`. They are foreign calls. Only their outcomes appear, as scripted replies.
- `PullImage` and `RemoveContainer` each become one scripted reply. The pull reply also covers the failure to drain the response stream.
- `BuildImage` is left out. It writes the Dockerfile, tars the context and drains the build response, all of which is file-system and stream I/O.
- `ListImages`, `TagImage`, `PushImages`, `StartContainer`, `ContainerLog`, `InspectContainer` and `StatusContainer` are left out. They are thin wrappers over one engine call plus logging.
- `DelImage` is left out. It creates its own client from the environment, ignores the injected one and discards that error.
- `RunContainer` is left out. It only composes create and start, and the `config` it builds is never used.
- `CheckImagesExistInDockerRegistry` treats the HTTP request, the body read and the JSON decode as one `fetch` collaborator. The type assertion `results["tags"].([]string)` at image.go:326 would panic on decoded JSON, because arrays decode to `[]interface{}`. That panic is not modelled; the tag list is taken as already decoded.
- `WaitContainerDone` leaves out the goroutine, the two channels and the one-second `time.Sleep`. Also left out: after delivering its result, the worker keeps looping and blocks forever on its next send. Only the outcome the caller receives is modelled.
- Logging is left out everywhere.
- GoStrings.EqualFold: folds ASCII letters only. Go also applies Unicode simple folding (e.g. the Kelvin sign matches "k"). This matters for registry tags, but not for "done" and "exited", which contain neither "k" nor "s".
- GoStrings.Index: counts characters, while Go counts bytes. The callers only compare the index with 0, and a string has a `:` at position 0 in both counts or in neither. Split cuts at each `:`, a single ASCII byte, so its pieces are the same whichever way positions are counted.
- Containers.CreateContainer: a run can stop because a reply script ran out. The engine's behaviour past the script is not given, which is what gives the otherwise unbounded recursion a limit.
- image_test.go needs a live Docker daemon and makes no pure assertions, so it is not modelled.

## Findings

| source | as written | input that shows it | evidently intended | confidence | as-written member | corrected member |
|---|---|---|---|---|---|---|
| image.go:250-253 | A failed force-remove after a name conflict is only logged. Control then reaches `return res.ID, nil`. | Create fails with `Conflict. The container name "/web" is already in use by container "4f2a"`, then removing "web" fails. The caller gets ("", nil) although no container was created. The empty ID relies on the Docker client leaving the response zero when it returns an error, which happens outside image.go. | The removal's error is returned, so a nil error means the container was created. Proved as Containers.ReportingReturnsRemovalError and Containers.ReportingSucceedsOnlyWhenCreated. | high; not executed | Containers.RemovalFailureSwallowed | Containers.CreateContainerReporting |

=== FILE: containers.dfy ===
/**
 Container creation with recovery, and batch removal.

 The engine is abstracted to scripts of replies: the i-th create, pull or remove
 call the code makes receives the i-th reply of the matching script. A run records
 every engine call it made, with the reply it got, in order. Each recursive retry
 of CreateContainer consumes a create reply, so a run always ends: either the code
 returns, or a script runs out (the engine's behaviour from then on is not given).
 */
module Containers {
  import opened Wrappers
  import opened GoStrings

  /** Substring that marks a missing local image in the engine's create error. */
  const NoSuchImage := "No such image"
  /** Substring that marks a container-name conflict in the engine's create error. */
  const NameInUse := "is already in use by container"

  /** The part of a container configuration the code reads; the rest travels unchanged. */
  datatype Config = Config(image: string, settings: seq<string>)
  datatype HostConfig = HostConfig(settings: seq<string>)

  /** The engine's answer to a create call; a failed create still carries the response's ID. */
  datatype CreateReply = Created(id: string) | CreateFailed(id: string, message: string)

  /** The answer to a pull or a force-remove: success or an error message. */
  datatype CallReply = Done | Failed(message: string)

  datatype Engine = Engine(creates: seq<CreateReply>, pulls: seq<CallReply>, removes: seq<CallReply>)

  /** One engine call, its arguments, and the reply it received. */
  datatype Event =
    | CreateCall(containerName: string, conf: Config, hostConf: HostConfig, created: CreateReply)
    | PullCall(image: string, pulled: CallReply)
    | RemoveCall(containerId: string, removed: CallReply)

  /**
   The end of a run: the (id, error) pair the code returns together with the calls
   it made and the unread remainder of the scripts; or the calls made before a
   script ran out.
   */
  datatype Run =
    | Returned(id: string, err: Option<string>, trace: seq<Event>, rest: Engine)
    | OutOfScript(trace: seq<Event>)

  /** The recovery a create error calls for, by substring, the missing image tested first. */
  datatype Fault = MissingImage | NameConflict | Unrecognized

  function Classify(message: string): (f: Fault)
    ensures f == MissingImage <==> Contains(message, NoSuchImage)
    ensures f == NameConflict <==> !Contains(message, NoSuchImage) && Contains(message, NameInUse)
  {
    if Contains(message, NoSuchImage) then MissingImage
    else if Contains(message, NameInUse) then NameConflict
    else Unrecognized
  }

  /**
   The caller's view of a retried create: its error with an empty ID, or its ID
   with a nil error.
   */
  function Retried(calls: seq<Event>, run: Run): (r: Run)
    ensures r.trace == calls + run.trace
  {
    match run
    case Returned(id, err, trace, rest) =>
      if err.Some? then Returned("", err, calls + trace, rest)
      else Returned(id, None, calls + trace, rest)
    case OutOfScript(trace) => OutOfScript(calls + trace)
  }

  /**
   CreateContainer as written: create; on an error naming a missing image pull
   conf.image and, if that worked, retry; on a name conflict force-remove the name
   and, if that worked, retry — but if the removal fails, fall through and return
   the failed create's ID with a nil error; on any other error return it.
   */
  function CreateContainer(containerName: string, conf: Config, hostConf: HostConfig, e: Engine): (r: Run)
    ensures |r.trace| > 0 <==> |e.creates| > 0
    ensures |r.trace| > 0 ==> r.trace[0] == CreateCall(containerName, conf, hostConf, e.creates[0])
    ensures r.Returned? ==> |r.rest.creates| < |e.creates|
    ensures r.Returned? && r.err.Some? ==> r.id == ""
    decreases |e.creates|
  {
    if |e.creates| == 0 then OutOfScript([])
    else
      var reply := e.creates[0];
      var e1 := e.(creates := e.creates[1..]);
      var create := CreateCall(containerName, conf, hostConf, reply);
      match reply
      case Created(id) => Returned(id, None, [create], e1)
      case CreateFailed(id, message) =>
        match Classify(message)
        case MissingImage =>
          if |e1.pulls| == 0 then OutOfScript([create])
          else
            var pull := PullCall(conf.image, e1.pulls[0]);
            var e2 := e1.(pulls := e1.pulls[1..]);
            if e1.pulls[0].Failed? then Returned("", Some(e1.pulls[0].message), [create, pull], e2)
            else Retried([create, pull], CreateContainer(containerName, conf, hostConf, e2))
        case NameConflict =>
          if |e1.removes| == 0 then OutOfScript([create])
          else
            var remove := RemoveCall(containerName, e1.removes[0]);
            var e2 := e1.(removes := e1.removes[1..]);
            if e1.removes[0].Failed? then Returned(id, None, [create, remove], e2)
            else Retried([create, remove], CreateContainer(containerName, conf, hostConf, e2))
        case Unrecognized => Returned("", Some(message), [create], e1)
  }

  // ---------------------------------------------------------------------------
  // What a single round of CreateContainer does

  /** A first create that succeeds returns its ID and makes no other call. */
  lemma CreateSucceeds(containerName: string, conf: Config, hostConf: HostConfig, e: Engine, id: string)
    requires |e.creates| > 0 && e.creates[0] == Created(id)
    ensures CreateContainer(containerName, conf, hostConf, e)
         == Returned(id, None, [CreateCall(containerName, conf, hostConf, Created(id))],
                     e.(creates := e.creates[1..]))
  {
  }

  /**
   A create error mentioning a missing image — whatever else it mentions — leads
   to exactly one pull of conf.image; a failed pull is returned and nothing is
   retried; a successful pull is followed by the same create again.
   */
  lemma CreateRecoversMissingImage(containerName: string, conf: Config, hostConf: HostConfig, e: Engine)
    requires |e.creates| > 0 && e.creates[0].CreateFailed?
    requires Contains(e.creates[0].message, NoSuchImage)
    requires |e.pulls| > 0
    ensures var r := CreateContainer(containerName, conf, hostConf, e);
      && |r.trace| >= 2
      && r.trace[0] == CreateCall(containerName, conf, hostConf, e.creates[0])
      && r.trace[1] == PullCall(conf.image, e.pulls[0])
    ensures e.pulls[0].Failed? ==>
      CreateContainer(containerName, conf, hostConf, e)
      == Returned("", Some(e.pulls[0].message),
                  [CreateCall(containerName, conf, hostConf, e.creates[0]), PullCall(conf.image, e.pulls[0])],
                  e.(creates := e.creates[1..], pulls := e.pulls[1..]))
    ensures e.pulls[0].Done? ==>
      CreateContainer(containerName, conf, hostConf, e)
      == Retried([CreateCall(containerName, conf, hostConf, e.creates[0]), PullCall(conf.image, e.pulls[0])],
                 CreateContainer(containerName, conf, hostConf, e.(creates := e.creates[1..], pulls := e.pulls[1..])))
  {
  }

  /**
   A name-conflict error leads to exactly one force-remove of the container name;
   a successful removal is followed by the same create again; a failed removal is
   swallowed and the failed create's ID comes back with a nil error.
   */
  lemma CreateRecoversNameConflict(containerName: string, conf: Config, hostConf: HostConfig, e: Engine)
    requires |e.creates| > 0 && e.creates[0].CreateFailed?
    requires !Contains(e.creates[0].message, NoSuchImage)
    requires Contains(e.creates[0].message, NameInUse)
    requires |e.removes| > 0
    ensures var r := CreateContainer(containerName, conf, hostConf, e);
      && |r.trace| >= 2
      && r.trace[0] == CreateCall(containerName, conf, hostConf, e.creates[0])
      && r.trace[1] == RemoveCall(containerName, e.removes[0])
    ensures e.removes[0].Failed? ==>
      CreateContainer(containerName, conf, hostConf, e)
      == Returned(e.creates[0].id, None,
                  [CreateCall(containerName, conf, hostConf, e.creates[0]), RemoveCall(containerName, e.removes[0])],
                  e.(creates := e.creates[1..], removes := e.removes[1..]))
    ensures e.removes[0].Done? ==>
      CreateContainer(containerName, conf, hostConf, e)
      == Retried([CreateCall(containerName, conf, hostConf, e.creates[0]), RemoveCall(containerName, e.removes[0])],
                 CreateContainer(containerName, conf, hostConf, e.(creates := e.creates[1..], removes := e.removes[1..])))
  {
  }

  /** Any other create error is returned unchanged after that single call. */
  lemma CreateReturnsUnrecognized(containerName: string, conf: Config, hostConf: HostConfig, e: Engine)
    requires |e.creates| > 0 && e.creates[0].CreateFailed?
    requires !Contains(e.creates[0].message, NoSuchImage)
    requires !Contains(e.creates[0].message, NameInUse)
    ensures CreateContainer(containerName, conf, hostConf, e)
         == Returned("", Some(e.creates[0].message),
                     [CreateCall(containerName, conf, hostConf, e.creates[0])],
                     e.(creates := e.creates[1..]))
  {
  }

  // ---------------------------------------------------------------------------
  // What holds of every run

  /** Every call of a run uses the caller's arguments: the same create, the same image, the same name. */
  ghost predicate SameArguments(trace: seq<Event>, containerName: string, conf: Config, hostConf: HostConfig) {
    forall k :: 0 <= k < |trace| ==>
      match trace[k]
      case CreateCall(n, c, h, _) => n == containerName && c == conf && h == hostConf
      case PullCall(image, _) => image == conf.image
      case RemoveCall(id, _) => id == containerName
  }

  lemma {:induction false} CreateKeepsArguments(containerName: string, conf: Config, hostConf: HostConfig, e: Engine)
    ensures SameArguments(CreateContainer(containerName, conf, hostConf, e).trace, containerName, conf, hostConf)
    decreases |e.creates|
  {
    if |e.creates| > 0 && e.creates[0].CreateFailed? {
      var e1 := e.(creates := e.creates[1..]);
      match Classify(e.creates[0].message)
      case MissingImage =>
        if |e1.pulls| > 0 && e1.pulls[0].Done? {
          CreateKeepsArguments(containerName, conf, hostConf, e1.(pulls := e1.pulls[1..]));
        }
      case NameConflict =>
        if |e1.removes| > 0 && e1.removes[0].Done? {
          CreateKeepsArguments(containerName, conf, hostConf, e1.(removes := e1.removes[1..]));
        }
      case Unrecognized =>
    }
  }

  /** Every pull in `t` comes right after a create whose error was classified as a missing image. */
  ghost predicate PullsFollowMissing(t: seq<Event>) {
    forall k :: 0 <= k < |t| && t[k].PullCall? ==>
      && 1 <= k
      && t[k - 1].CreateCall? && t[k - 1].created.CreateFailed?
      && Classify(t[k - 1].created.message) == MissingImage
  }

  /** Every removal in `t` comes right after a create whose error was classified as a name conflict. */
  ghost predicate RemovesFollowConflict(t: seq<Event>) {
    forall k :: 0 <= k < |t| && t[k].RemoveCall? ==>
      && 1 <= k
      && t[k - 1].CreateCall? && t[k - 1].created.CreateFailed?
      && Classify(t[k - 1].created.message) == NameConflict
  }

  /** A failed create and the recovery it caused, put in front of a run, keep the property. */
  lemma PullsFollowMissingAfter(create: Event, action: Event, t: seq<Event>)
    requires PullsFollowMissing([create, action]) && PullsFollowMissing(t)
    ensures PullsFollowMissing([create, action] + t)
  {
    assert ([create, action] + t)[2..] == t;
  }

  /** The same for removals. */
  lemma RemovesFollowConflictAfter(create: Event, action: Event, t: seq<Event>)
    requires RemovesFollowConflict([create, action]) && RemovesFollowConflict(t)
    ensures RemovesFollowConflict([create, action] + t)
  {
    assert ([create, action] + t)[2..] == t;
  }

  /** A pull is only ever made right after a create that failed for a missing image. */
  lemma {:induction false} CreatePullsOnlyForMissingImage(containerName: string, conf: Config, hostConf: HostConfig, e: Engine)
    ensures PullsFollowMissing(CreateContainer(containerName, conf, hostConf, e).trace)
    decreases |e.creates|
  {
    if |e.creates| > 0 && e.creates[0].CreateFailed? {
      var e1 := e.(creates := e.creates[1..]);
      var create := CreateCall(containerName, conf, hostConf, e.creates[0]);
      match Classify(e.creates[0].message)
      case MissingImage =>
        if |e1.pulls| > 0 && e1.pulls[0].Done? {
          var e2 := e1.(pulls := e1.pulls[1..]);
          CreatePullsOnlyForMissingImage(containerName, conf, hostConf, e2);
          PullsFollowMissingAfter(create, PullCall(conf.image, e1.pulls[0]), CreateContainer(containerName, conf, hostConf, e2).trace);
        }
      case NameConflict =>
        if |e1.removes| > 0 && e1.removes[0].Done? {
          var e2 := e1.(removes := e1.removes[1..]);
          CreatePullsOnlyForMissingImage(containerName, conf, hostConf, e2);
          PullsFollowMissingAfter(create, RemoveCall(containerName, e1.removes[0]), CreateContainer(containerName, conf, hostConf, e2).trace);
        }
      case Unrecognized =>
    }
  }

  /** A force-remove is only ever made right after a create that failed for a name conflict. */
  lemma {:induction false} CreateRemovesOnlyOnConflict(containerName: string, conf: Config, hostConf: HostConfig, e: Engine)
    ensures RemovesFollowConflict(CreateContainer(containerName, conf, hostConf, e).trace)
    decreases |e.creates|
  {
    if |e.creates| > 0 && e.creates[0].CreateFailed? {
      var e1 := e.(creates := e.creates[1..]);
      var create := CreateCall(containerName, conf, hostConf, e.creates[0]);
      match Classify(e.creates[0].message)
      case MissingImage =>
        if |e1.pulls| > 0 && e1.pulls[0].Done? {
          var e2 := e1.(pulls := e1.pulls[1..]);
          CreateRemovesOnlyOnConflict(containerName, conf, hostConf, e2);
          RemovesFollowConflictAfter(create, PullCall(conf.image, e1.pulls[0]), CreateContainer(containerName, conf, hostConf, e2).trace);
        }
      case NameConflict =>
        if |e1.removes| > 0 && e1.removes[0].Done? {
          var e2 := e1.(removes := e1.removes[1..]);
          CreateRemovesOnlyOnConflict(containerName, conf, hostConf, e2);
          RemovesFollowConflictAfter(create, RemoveCall(containerName, e1.removes[0]), CreateContainer(containerName, conf, hostConf, e2).trace);
        }
      case Unrecognized =>
    }
  }

  /** The replies a trace received, per kind of call, in order. */
  function CreateReplies(trace: seq<Event>): seq<CreateReply> {
    if |trace| == 0 then []
    else (if trace[0].CreateCall? then [trace[0].created] else []) + CreateReplies(trace[1..])
  }

  function PullReplies(trace: seq<Event>): seq<CallReply> {
    if |trace| == 0 then []
    else (if trace[0].PullCall? then [trace[0].pulled] else []) + PullReplies(trace[1..])
  }

  function RemoveReplies(trace: seq<Event>): seq<CallReply> {
    if |trace| == 0 then []
    else (if trace[0].RemoveCall? then [trace[0].removed] else []) + RemoveReplies(trace[1..])
  }

  lemma RepliesOfOne(ev: Event)
    ensures CreateReplies([ev]) == (if ev.CreateCall? then [ev.created] else [])
    ensures PullReplies([ev]) == (if ev.PullCall? then [ev.pulled] else [])
    ensures RemoveReplies([ev]) == (if ev.RemoveCall? then [ev.removed] else [])
    ensures Recoveries([ev]) == (if IsRecovery(ev) then 1 else 0)
  {
    assert [ev][1..] == [];
  }

  /** The replies and recoveries of a round: a create followed by a pull or a removal. */
  lemma RepliesOfRound(create: Event, action: Event)
    requires create.CreateCall? && !action.CreateCall?
    ensures CreateReplies([create, action]) == [create.created]
    ensures PullReplies([create, action]) == (if action.PullCall? then [action.pulled] else [])
    ensures RemoveReplies([create, action]) == (if action.RemoveCall? then [action.removed] else [])
    ensures Recoveries([create, action]) == (if IsRecovery(action) then 1 else 0)
  {
    assert [create, action][1..] == [action];
    RepliesOfOne(action);
    assert [action][1..] == [];
  }

  lemma {:induction false} RepliesOfConcat(a: seq<Event>, b: seq<Event>)
    ensures CreateReplies(a + b) == CreateReplies(a) + CreateReplies(b)
    ensures PullReplies(a + b) == PullReplies(a) + PullReplies(b)
    ensures RemoveReplies(a + b) == RemoveReplies(a) + RemoveReplies(b)
    ensures Recoveries(a + b) == Recoveries(a) + Recoveries(b)
    decreases |a|
  {
    if |a| > 0 {
      assert (a + b)[0] == a[0];
      assert (a + b)[1..] == a[1..] + b;
      RepliesOfConcat(a[1..], b);
    } else {
      assert a + b == b;
    }
  }

  /**
   `trace` read the scripts of `e` in order and left `rest` unread: each script is
   the replies the trace received, followed by its unread remainder.
   */
  ghost predicate ReadInOrder(e: Engine, trace: seq<Event>, rest: Engine) {
    && e.creates == CreateReplies(trace) + rest.creates
    && e.pulls == PullReplies(trace) + rest.pulls
    && e.removes == RemoveReplies(trace) + rest.removes
  }

  /** Reading in order composes: a round read first, then the retried run. */
  lemma ReadInOrderRetried(e: Engine, calls: seq<Event>, e2: Engine, sub: Run)
    requires ReadInOrder(e, calls, e2)
    requires sub.Returned? ==> ReadInOrder(e2, sub.trace, sub.rest)
    ensures var r := Retried(calls, sub); r.Returned? ==> ReadInOrder(e, r.trace, r.rest)
  {
    if sub.Returned? {
      var r := Retried(calls, sub);
      assert r.trace == calls + sub.trace && r.rest == sub.rest;
      RepliesOfConcat(calls, sub.trace);
      ReadThenRest(e.creates, CreateReplies(calls), e2.creates, CreateReplies(sub.trace), sub.rest.creates);
      ReadThenRest(e.pulls, PullReplies(calls), e2.pulls, PullReplies(sub.trace), sub.rest.pulls);
      ReadThenRest(e.removes, RemoveReplies(calls), e2.removes, RemoveReplies(sub.trace), sub.rest.removes);
    }
  }

  /** A script read in two stretches is the two stretches followed by what is left. */
  lemma ReadThenRest<T>(script: seq<T>, first: seq<T>, mid: seq<T>, second: seq<T>, rest: seq<T>)
    requires script == first + mid && mid == second + rest
    ensures script == (first + second) + rest
  {
  }

  /** A returned run read its scripts in order, one reply per call, and nothing else. */
  lemma {:induction false} CreateFollowsScript(containerName: string, conf: Config, hostConf: HostConfig, e: Engine)
    ensures var r := CreateContainer(containerName, conf, hostConf, e);
      r.Returned? ==> ReadInOrder(e, r.trace, r.rest)
    decreases |e.creates|
  {
    if |e.creates| > 0 {
      var e1 := e.(creates := e.creates[1..]);
      var create := CreateCall(containerName, conf, hostConf, e.creates[0]);
      assert e.creates == [e.creates[0]] + e.creates[1..];
      RepliesOfOne(create);
      if e.creates[0].CreateFailed? {
        match Classify(e.creates[0].message)
        case MissingImage =>
          if |e1.pulls| > 0 {
            var e2 := e1.(pulls := e1.pulls[1..]);
            var calls := [create, PullCall(conf.image, e1.pulls[0])];
            RoundReadInOrder(e, calls, e2);
            if e1.pulls[0].Done? {
              CreateFollowsScript(containerName, conf, hostConf, e2);
              ReadInOrderRetried(e, calls, e2, CreateContainer(containerName, conf, hostConf, e2));
            }
          }
        case NameConflict =>
          if |e1.removes| > 0 {
            var e2 := e1.(removes := e1.removes[1..]);
            var calls := [create, RemoveCall(containerName, e1.removes[0])];
            RoundReadInOrder(e, calls, e2);
            if e1.removes[0].Done? {
              CreateFollowsScript(containerName, conf, hostConf, e2);
              ReadInOrderRetried(e, calls, e2, CreateContainer(containerName, conf, hostConf, e2));
            }
          }
        case Unrecognized =>
      }
    }
  }

  /**
   A round — the first create reply, then the first pull or the first removal
   reply — reads its scripts in order and leaves the scripts without those replies.
   */
  lemma RoundReadInOrder(e: Engine, calls: seq<Event>, e2: Engine)
    requires |calls| == 2 && |e.creates| > 0
    requires calls[0].CreateCall? && calls[0].created == e.creates[0]
    requires calls[1].PullCall? ==>
      |e.pulls| > 0 && calls[1].pulled == e.pulls[0] && e2 == e.(creates := e.creates[1..], pulls := e.pulls[1..])
    requires calls[1].RemoveCall? ==>
      |e.removes| > 0 && calls[1].removed == e.removes[0] && e2 == e.(creates := e.creates[1..], removes := e.removes[1..])
    requires !calls[1].CreateCall?
    ensures ReadInOrder(e, calls, e2)
  {
    assert calls == [calls[0], calls[1]];
    RepliesOfRound(calls[0], calls[1]);
    assert e.creates == [e.creates[0]] + e.creates[1..];
    if calls[1].PullCall? {
      assert e.pulls == [e.pulls[0]] + e.pulls[1..];
    } else {
      assert e.removes == [e.removes[0]] + e.removes[1..];
    }
  }

  /**
   How a run that returns a nil error ends: its last call is a create that
   succeeded with that ID, or a failed removal right after a name-conflict create
   whose ID is the one returned.
   */
  ghost predicate NilEnding(t: seq<Event>, id: string) {
    && |t| >= 1
    && (|| (t[|t| - 1].CreateCall? && t[|t| - 1].created == Created(id))
        || (&& |t| >= 2
            && t[|t| - 1].RemoveCall? && t[|t| - 1].removed.Failed?
            && t[|t| - 2].CreateCall? && t[|t| - 2].created.CreateFailed?
            && t[|t| - 2].created.id == id
            && Classify(t[|t| - 2].created.message) == NameConflict))
  }

  /**
   How a run that returns an error ends: with the failed pull right after a
   missing-image create, or with a create whose unrecognized error it is. It is
   never a removal's error.
   */
  ghost predicate ErrorEnding(t: seq<Event>, message: string) {
    && |t| >= 1
    && (|| (&& |t| >= 2
            && t[|t| - 1].PullCall? && t[|t| - 1].pulled == Failed(message)
            && t[|t| - 2].CreateCall? && t[|t| - 2].created.CreateFailed?
            && Classify(t[|t| - 2].created.message) == MissingImage)
        || (&& t[|t| - 1].CreateCall? && t[|t| - 1].created == CreateFailed(t[|t| - 1].created.id, message)
            && Classify(message) == Unrecognized))
  }

  /** Both endings look only at the last two calls, so calls made before them do not matter. */
  lemma EndingsAfter(calls: seq<Event>, t: seq<Event>, id: string, message: string)
    ensures NilEnding(t, id) ==> NilEnding(calls + t, id)
    ensures ErrorEnding(t, message) ==> ErrorEnding(calls + t, message)
  {
    if |t| >= 1 {
      LastTwoAfter(calls, t);
    }
  }

  /** A run that returns a nil error ends as NilEnding describes. */
  lemma {:induction false} CreateEndsWithoutError(containerName: string, conf: Config, hostConf: HostConfig, e: Engine)
    ensures var r := CreateContainer(containerName, conf, hostConf, e);
      r.Returned? && r.err == None ==> NilEnding(r.trace, r.id)
    decreases |e.creates|
  {
    if |e.creates| > 0 && e.creates[0].CreateFailed? {
      var e1 := e.(creates := e.creates[1..]);
      var create := CreateCall(containerName, conf, hostConf, e.creates[0]);
      match Classify(e.creates[0].message)
      case MissingImage =>
        if |e1.pulls| > 0 && e1.pulls[0].Done? {
          var e2 := e1.(pulls := e1.pulls[1..]);
          var sub := CreateContainer(containerName, conf, hostConf, e2);
          CreateEndsWithoutError(containerName, conf, hostConf, e2);
          if sub.Returned? {
            EndingsAfter([create, PullCall(conf.image, e1.pulls[0])], sub.trace, sub.id, "");
          }
        }
      case NameConflict =>
        if |e1.removes| > 0 && e1.removes[0].Done? {
          var e2 := e1.(removes := e1.removes[1..]);
          var sub := CreateContainer(containerName, conf, hostConf, e2);
          CreateEndsWithoutError(containerName, conf, hostConf, e2);
          if sub.Returned? {
            EndingsAfter([create, RemoveCall(containerName, e1.removes[0])], sub.trace, sub.id, "");
          }
        }
      case Unrecognized =>
    }
  }

  /** A run that returns an error returns it with an empty ID and ends as ErrorEnding describes. */
  lemma {:induction false} CreateEndsWithError(containerName: string, conf: Config, hostConf: HostConfig, e: Engine)
    ensures var r := CreateContainer(containerName, conf, hostConf, e);
      r.Returned? && r.err.Some? ==> r.id == "" && ErrorEnding(r.trace, r.err.value)
    decreases |e.creates|
  {
    if |e.creates| > 0 && e.creates[0].CreateFailed? {
      var e1 := e.(creates := e.creates[1..]);
      var create := CreateCall(containerName, conf, hostConf, e.creates[0]);
      match Classify(e.creates[0].message)
      case MissingImage =>
        if |e1.pulls| > 0 && e1.pulls[0].Done? {
          var e2 := e1.(pulls := e1.pulls[1..]);
          var sub := CreateContainer(containerName, conf, hostConf, e2);
          CreateEndsWithError(containerName, conf, hostConf, e2);
          if sub.Returned? && sub.err.Some? {
            EndingsAfter([create, PullCall(conf.image, e1.pulls[0])], sub.trace, "", sub.err.value);
          }
        }
      case NameConflict =>
        if |e1.removes| > 0 && e1.removes[0].Done? {
          var e2 := e1.(removes := e1.removes[1..]);
          var sub := CreateContainer(containerName, conf, hostConf, e2);
          CreateEndsWithError(containerName, conf, hostConf, e2);
          if sub.Returned? && sub.err.Some? {
            EndingsAfter([create, RemoveCall(containerName, e1.removes[0])], sub.trace, "", sub.err.value);
          }
        }
      case Unrecognized =>
    }
  }

  /** Prefixing calls does not change the last two calls of a non-empty trace. */
  lemma LastTwoAfter(calls: seq<Event>, t: seq<Event>)
    requires |t| >= 1
    ensures var u := calls + t;
      && u[|u| - 1] == t[|t| - 1]
      && (|t| >= 2 ==> u[|u| - 2] == t[|t| - 2])
  {
  }

  /** A recovery action that succeeded: a pull or a removal answered Done. */
  predicate IsRecovery(ev: Event) {
    match ev
    case CreateCall(_, _, _, _) => false
    case PullCall(_, pulled) => pulled == Done
    case RemoveCall(_, removed) => removed == Done
  }

  /** The number of successful recoveries in a trace. */
  function Recoveries(trace: seq<Event>): nat {
    if |trace| == 0 then 0
    else (if IsRecovery(trace[0]) then 1 else 0) + Recoveries(trace[1..])
  }

  /**
   Retries happen only after a successful recovery, and after each one: a
   returned run made exactly one more create call than it had successful pulls
   and removals.
   */
  lemma {:induction false} CreateRetriesOncePerRecovery(containerName: string, conf: Config, hostConf: HostConfig, e: Engine)
    ensures var r := CreateContainer(containerName, conf, hostConf, e);
      r.Returned? ==> |CreateReplies(r.trace)| == Recoveries(r.trace) + 1
    decreases |e.creates|
  {
    if |e.creates| > 0 {
      var e1 := e.(creates := e.creates[1..]);
      var create := CreateCall(containerName, conf, hostConf, e.creates[0]);
      RepliesOfOne(create);
      assert [create][1..] == [];
      if e.creates[0].CreateFailed? {
        match Classify(e.creates[0].message)
        case MissingImage =>
          if |e1.pulls| > 0 {
            var calls := [create, PullCall(conf.image, e1.pulls[0])];
            RepliesOfRound(create, calls[1]);
            if e1.pulls[0].Done? {
              var e2 := e1.(pulls := e1.pulls[1..]);
              CreateRetriesOncePerRecovery(containerName, conf, hostConf, e2);
              RepliesOfConcat(calls, CreateContainer(containerName, conf, hostConf, e2).trace);
            }
          }
        case NameConflict =>
          if |e1.removes| > 0 {
            var calls := [create, RemoveCall(containerName, e1.removes[0])];
            RepliesOfRound(create, calls[1]);
            if e1.removes[0].Done? {
              var e2 := e1.(removes := e1.removes[1..]);
              CreateRetriesOncePerRecovery(containerName, conf, hostConf, e2);
              RepliesOfConcat(calls, CreateContainer(containerName, conf, hostConf, e2).trace);
            }
          }
        case Unrecognized =>
      }
    }
  }

  // ---------------------------------------------------------------------------
  // The swallowed removal failure, and the create that reports it

  /**
   As written, a failed removal after a name conflict reaches the final return
   with a nil error: the caller gets the failed create's ID (the Docker client
   leaves it empty) as if the container had been created, and no create that
   succeeded appears anywhere in the run.
   */
  lemma RemovalFailureSwallowed(containerName: string, conf: Config, hostConf: HostConfig,
                                id: string, message: string, removal: string)
    requires Classify(message) == NameConflict
    ensures
      var e := Engine([CreateFailed(id, message)], [], [Failed(removal)]);
      var r := CreateContainer(containerName, conf, hostConf, e);
      && r.Returned? && r.id == id && r.err == None
      && forall k :: 0 <= k < |r.trace| ==> !(r.trace[k].CreateCall? && r.trace[k].created.Created?)
  {
  }

  /**
   An error text that contains the conflict marker and nowhere "No such image" is
   classified as a name conflict, whatever surrounds the marker.
   */
  lemma ConflictClassified(before: string, after: string)
    requires !Contains(before + NameInUse + after, NoSuchImage)
    ensures Classify(before + NameInUse + after) == NameConflict
  {
    var m := before + NameInUse + after;
    assert m[|before|..|before| + |NameInUse|] == NameInUse;
    OccursThenContains(m, NameInUse, |before|);
  }

  /**
   One way to meet ConflictClassified's condition: the text around the marker has
   no capital 'N', as in the engine's
   `Conflict. The container name "/web" is already in use by container "4f2a"`.
   */
  lemma ConflictWithoutCapitalN(before: string, after: string)
    requires 'N' !in before && 'N' !in after
    ensures Classify(before + NameInUse + after) == NameConflict
  {
    var m := before + NameInUse + after;
    assert 'N' !in NameInUse;
    assert 'N' !in m;
    MissingFirstCharNotContained(m, NoSuchImage);
    ConflictClassified(before, after);
  }

  /** A string lacking the first character of `sub` does not contain `sub`. */
  lemma MissingFirstCharNotContained(s: string, sub: string)
    requires |sub| > 0 && sub[0] !in s
    ensures !Contains(s, sub)
  {
    ContainsIffOccurs(s, sub);
  }

  /**
   CreateContainer with the removal failure reported instead of swallowed; every
   other branch is as written.
   */
  function CreateContainerReporting(containerName: string, conf: Config, hostConf: HostConfig, e: Engine): (r: Run)
    ensures |r.trace| > 0 <==> |e.creates| > 0
    ensures |r.trace| > 0 ==> r.trace[0] == CreateCall(containerName, conf, hostConf, e.creates[0])
    ensures r.Returned? ==> |r.rest.creates| < |e.creates|
    ensures r.Returned? && r.err.Some? ==> r.id == ""
    decreases |e.creates|
  {
    if |e.creates| == 0 then OutOfScript([])
    else
      var reply := e.creates[0];
      var e1 := e.(creates := e.creates[1..]);
      var create := CreateCall(containerName, conf, hostConf, reply);
      match reply
      case Created(id) => Returned(id, None, [create], e1)
      case CreateFailed(id, message) =>
        match Classify(message)
        case MissingImage =>
          if |e1.pulls| == 0 then OutOfScript([create])
          else
            var pull := PullCall(conf.image, e1.pulls[0]);
            var e2 := e1.(pulls := e1.pulls[1..]);
            if e1.pulls[0].Failed? then Returned("", Some(e1.pulls[0].message), [create, pull], e2)
            else Retried([create, pull], CreateContainerReporting(containerName, conf, hostConf, e2))
        case NameConflict =>
          if |e1.removes| == 0 then OutOfScript([create])
          else
            var remove := RemoveCall(containerName, e1.removes[0]);
            var e2 := e1.(removes := e1.removes[1..]);
            if e1.removes[0].Failed? then Returned("", Some(e1.removes[0].message), [create, remove], e2)
            else Retried([create, remove], CreateContainerReporting(containerName, conf, hostConf, e2))
        case Unrecognized => Returned("", Some(message), [create], e1)
  }

  /**
   With removal failures reported, a nil error means the engine did create the
   container: the last call of the run is a create that succeeded with the
   returned ID.
   */
  lemma {:induction false} ReportingSucceedsOnlyWhenCreated(containerName: string, conf: Config, hostConf: HostConfig, e: Engine)
    ensures var r := CreateContainerReporting(containerName, conf, hostConf, e);
      r.Returned? && r.err == None ==>
        && |r.trace| >= 1
        && r.trace[|r.trace| - 1] == CreateCall(containerName, conf, hostConf, Created(r.id))
    decreases |e.creates|
  {
    if |e.creates| > 0 && e.creates[0].CreateFailed? {
      var e1 := e.(creates := e.creates[1..]);
      var create := CreateCall(containerName, conf, hostConf, e.creates[0]);
      match Classify(e.creates[0].message)
      case MissingImage =>
        if |e1.pulls| > 0 && e1.pulls[0].Done? {
          var e2 := e1.(pulls := e1.pulls[1..]);
          var sub := CreateContainerReporting(containerName, conf, hostConf, e2);
          ReportingSucceedsOnlyWhenCreated(containerName, conf, hostConf, e2);
          if sub.Returned? && sub.err == None {
            LastTwoAfter([create, PullCall(conf.image, e1.pulls[0])], sub.trace);
          }
        }
      case NameConflict =>
        if |e1.removes| > 0 && e1.removes[0].Done? {
          var e2 := e1.(removes := e1.removes[1..]);
          var sub := CreateContainerReporting(containerName, conf, hostConf, e2);
          ReportingSucceedsOnlyWhenCreated(containerName, conf, hostConf, e2);
          if sub.Returned? && sub.err == None {
            LastTwoAfter([create, RemoveCall(containerName, e1.removes[0])], sub.trace);
          }
        }
      case Unrecognized =>
    }
  }

  /** A failed removal after a name conflict is returned as the run's error. */
  lemma ReportingReturnsRemovalError(containerName: string, conf: Config, hostConf: HostConfig, e: Engine)
    requires |e.creates| > 0 && e.creates[0].CreateFailed?
    requires Classify(e.creates[0].message) == NameConflict
    requires |e.removes| > 0 && e.removes[0].Failed?
    ensures var r := CreateContainerReporting(containerName, conf, hostConf, e);
      r.Returned? && r.id == "" && r.err == Some(e.removes[0].message)
  {
  }

  // ---------------------------------------------------------------------------
  // RemoveContainers

  /**
   RemoveContainers: force-remove the ids in order, stopping at the first failure.
   `reply(k, id)` is the engine's answer to the k-th removal, of `id`. The
   result is nil exactly when every removal succeeded; otherwise it is the
   first failure, after which no later id was attempted.
   */
  method RemoveContainers(ids: seq<string>, reply: (nat, string) -> CallReply)
    returns (err: Option<string>, trace: seq<Event>)
    ensures |trace| <= |ids|
    ensures forall k :: 0 <= k < |trace| ==> trace[k] == RemoveCall(ids[k], reply(k, ids[k]))
    ensures err == None <==> forall k :: 0 <= k < |ids| ==> reply(k, ids[k]) == Done
    ensures err == None ==> |trace| == |ids|
    ensures err.Some? ==>
      && |trace| >= 1
      && reply(|trace| - 1, ids[|trace| - 1]) == Failed(err.value)
      && forall k :: 0 <= k < |trace| - 1 ==> reply(k, ids[k]) == Done
  {
    trace := [];
    var i := 0;
    while i < |ids|
      invariant 0 <= i <= |ids| && |trace| == i
      invariant forall k :: 0 <= k < i ==> trace[k] == RemoveCall(ids[k], reply(k, ids[k]))
      invariant forall k :: 0 <= k < i ==> reply(k, ids[k]) == Done
    {
      var answer := reply(i, ids[i]);
      trace := trace + [RemoveCall(ids[i], answer)];
      if answer.Failed? {
        return Some(answer.message), trace;
      }
      i := i + 1;
    }
    return None, trace;
  }
}

=== FILE: go_strings.dfy ===
/**
 The few functions of Go's `strings` package that the image and container code
 relies on, over `seq<char>`. Separators are single characters (the code only
 ever splits on ":"), so a character index stands in for Go's byte index: the two
 agree on whether the separator is at position 0, which is all the callers test.
 */
module GoStrings {

  /** strings.HasPrefix */
  predicate HasPrefix(s: string, prefix: string) {
    |prefix| <= |s| && s[..|prefix|] == prefix
  }

  /** strings.HasSuffix: the last |suffix| characters of `s` are those of `suffix`, in order. */
  predicate HasSuffix(s: string, suffix: string)
    ensures HasSuffix(s, suffix) <==>
      |suffix| <= |s| && forall i :: 0 <= i < |suffix| ==> s[|s| - |suffix| + i] == suffix[i]
  {
    |suffix| <= |s| && s[|s| - |suffix|..] == suffix
  }

  /** `sub` occurs in `s` starting at position `i`. */
  ghost predicate OccursAt(s: string, sub: string, i: int) {
    0 <= i && i + |sub| <= |s| && s[i..i + |sub|] == sub
  }

  /** strings.Contains: scans the start positions of `s` from left to right. */
  predicate Contains(s: string, sub: string)
    ensures Contains(s, sub) ==> |sub| <= |s|
    ensures |sub| == 0 ==> Contains(s, sub)
    decreases |s|
  {
    HasPrefix(s, sub) || (|s| > 0 && Contains(s[1..], sub))
  }

  /** Any occurrence of `sub` in `s` is found by Contains. */
  lemma {:induction false} OccursThenContains(s: string, sub: string, i: int)
    requires OccursAt(s, sub, i)
    ensures Contains(s, sub)
    decreases i
  {
    if i == 0 {
      assert HasPrefix(s, sub);
    } else {
      assert s[1..][i - 1..i - 1 + |sub|] == s[i..i + |sub|];
      OccursThenContains(s[1..], sub, i - 1);
    }
  }

  /** Contains holds exactly when `sub` occurs at some position of `s`. */
  lemma {:induction false} ContainsIffOccurs(s: string, sub: string)
    ensures Contains(s, sub) <==> exists i :: OccursAt(s, sub, i)
    decreases |s|
  {
    forall i | OccursAt(s, sub, i) {
      OccursThenContains(s, sub, i);
    }
    if HasPrefix(s, sub) {
      assert OccursAt(s, sub, 0);
    } else if Contains(s, sub) {
      ContainsIffOccurs(s[1..], sub);
      var i :| OccursAt(s[1..], sub, i);
      assert s[1..][i..i + |sub|] == s[i + 1..i + 1 + |sub|];
      assert OccursAt(s, sub, i + 1);
    }
  }

  /**
   strings.Index for a one-character separator: the position of the first `c`
   in `s`, or -1 when `s` has none.
   */
  function Index(s: string, c: char): (r: int)
    ensures -1 <= r < |s|
    ensures r == -1 <==> c !in s
    ensures 0 <= r ==> s[r] == c && c !in s[..r]
    decreases |s|
  {
    if |s| == 0 then -1
    else if s[0] == c then 0
    else
      var k := Index(s[1..], c);
      if k < 0 then -1 else k + 1
  }

  /**
   strings.Split for a one-character separator: the pieces of `s` between
   occurrences of `sep`, always one more piece than there are separators, and
   never an empty result (Split("", sep) is [""]).
   */
  function Split(s: string, sep: char): (parts: seq<string>)
    ensures |parts| == multiset(s)[sep] + 1
    ensures forall k :: 0 <= k < |parts| ==> sep !in parts[k]
    ensures Join(parts, sep) == s
    decreases |s|
  {
    var i := Index(s, sep);
    if i < 0 then [s]
    else
      var rest := Split(s[i + 1..], sep);
      assert s == s[..i] + [sep] + s[i + 1..];
      assert multiset(s) == multiset(s[..i]) + multiset([sep]) + multiset(s[i + 1..]);
      [s[..i]] + rest
  }

  /** strings.Join for a one-character separator. */
  function Join(parts: seq<string>, sep: char): string
    decreases |parts|
  {
    if |parts| == 0 then ""
    else if |parts| == 1 then parts[0]
    else parts[0] + [sep] + Join(parts[1..], sep)
  }

  /** Split undoes Join whenever no piece contains the separator. */
  lemma {:induction false} SplitJoin(parts: seq<string>, sep: char)
    requires |parts| >= 1
    requires forall k :: 0 <= k < |parts| ==> sep !in parts[k]
    ensures Split(Join(parts, sep), sep) == parts
    decreases |parts|
  {
    if |parts| > 1 {
      var s := Join(parts, sep);
      assert s == parts[0] + [sep] + Join(parts[1..], sep);
      assert s[|parts[0]|] == sep;
      assert s[..|parts[0]|] == parts[0];
      assert Index(s, sep) == |parts[0]|;
      assert s[|parts[0]| + 1..] == Join(parts[1..], sep);
      SplitJoin(parts[1..], sep);
    }
  }

  /** The first piece of a split is the text before the first separator. */
  lemma SplitFirst(s: string, sep: char)
    requires 0 <= Index(s, sep)
    ensures |Split(s, sep)| >= 2
    ensures Split(s, sep)[0] == s[..Index(s, sep)]
  {
  }

  /**
   The second piece of a split is the text after the first separator up to the
   next separator or the end: it is free of `sep`, starts right after the first
   separator, and is followed by `sep` or by the end of `s`.
   */
  lemma SplitSecond(s: string, sep: char)
    requires 0 <= Index(s, sep)
    ensures |Split(s, sep)| >= 2
    ensures var i := Index(s, sep); var t := Split(s, sep)[1];
      && sep !in t
      && HasPrefix(s[i + 1..], t)
      && (i + 1 + |t| == |s| || s[i + 1 + |t|] == sep)
  {
    var i := Index(s, sep);
    var rest := s[i + 1..];
    assert Split(s, sep) == [s[..i]] + Split(rest, sep);
    var t := Split(rest, sep)[0];
    var j := Index(rest, sep);
    if j < 0 {
      assert t == rest;
    } else {
      assert t == rest[..j];
      assert rest[j] == sep;
    }
  }

  /** Simple ASCII case folding: upper-case letters map to lower case. */
  function FoldCase(c: char): char {
    if 'A' <= c <= 'Z' then (c as int + ('a' as int - 'A' as int)) as char else c
  }

  /** An ASCII letter. */
  predicate IsLetter(c: char) {
    'A' <= c <= 'Z' || 'a' <= c <= 'z'
  }

  /**
   `a` and `b` have the same length and differ only where both characters are
   letters of the same value in opposite case.
   */
  predicate SameUpToCase(a: string, b: string) {
    |a| == |b| && forall i :: 0 <= i < |a| ==>
      a[i] == b[i] || (IsLetter(a[i]) && IsLetter(b[i]) && (a[i] as int - b[i] as int == 32 || b[i] as int - a[i] as int == 32))
  }

  /**
   strings.EqualFold, restricted to ASCII case folding: two strings match exactly
   when they are the same up to letter case; in particular equal strings match.
   */
  predicate EqualFold(a: string, b: string)
    ensures a == b ==> EqualFold(a, b)
    ensures EqualFold(a, b) <==> SameUpToCase(a, b)
  {
    |a| == |b| && forall i :: 0 <= i < |a| ==> FoldCase(a[i]) == FoldCase(b[i])
  }

}

=== FILE: image_names.dfy ===
/**
 Image references: a bare image name (which may carry a tag after a ':') and an
 optional registry host. The fully qualified reference, the bare name and the tag
 are all computed from these two strings; nothing is stored.
 */
module ImageNames {
  import opened GoStrings

  /** Go's `imageName` struct; an empty registry means "no registry". */
  datatype ImageName = ImageName(name: string, dockerRegistry: string)

  /** A registry host with one trailing '/' (if it has one) taken off. */
  function WithoutTrailingSlash(registry: string): (r: string)
    ensures registry == r || registry == r + "/"
  {
    if HasSuffix(registry, "/") then registry[..|registry| - 1] else registry
  }

  /**
   The fully qualified reference: the name alone without a registry, otherwise
   the registry and the name joined by exactly one added '/' — a registry that
   already ends in '/' gets none added. The receiver is a value, so the caller's
   ImageName is left as it was.
   */
  function GetFullImageName(n: ImageName): (full: string)
    ensures n.dockerRegistry == "" ==> full == n.name
    ensures n.dockerRegistry != "" ==>
      full == WithoutTrailingSlash(n.dockerRegistry) + "/" + n.name
    ensures HasPrefix(full, n.dockerRegistry) && HasSuffix(full, n.name)
  {
    var registry :=
      if n.dockerRegistry != "" && !HasSuffix(n.dockerRegistry, "/") then n.dockerRegistry + "/"
      else n.dockerRegistry;
    assert (registry + n.name)[..|n.dockerRegistry|] == n.dockerRegistry;
    assert (registry + n.name)[|registry + n.name| - |n.name|..] == n.name;
    registry + n.name
  }

  /**
   Both spellings of a registry, with and without its trailing '/', give the same
   fully qualified reference.
   */
  lemma FullNameIgnoresTrailingSlash(name: string, registry: string)
    requires registry != "" && !HasSuffix(registry, "/")
    ensures GetFullImageName(ImageName(name, registry + "/"))
         == GetFullImageName(ImageName(name, registry))
    ensures WithoutTrailingSlash(registry + "/") == registry
  {
    assert HasSuffix(registry + "/", "/");
    assert (registry + "/")[..|registry|] == registry;
  }

  /**
   GetImageName: when the first ':' is past position 0, the text before it;
   otherwise (no ':' at all, or a leading one) the whole string.
   */
  function GetImageName(s: string): (r: string)
    ensures Index(s, ':') > 0 ==> r == s[..Index(s, ':')] && ':' !in r && r != ""
    ensures Index(s, ':') <= 0 ==> r == s
    ensures HasPrefix(s, r)
  {
    if Index(s, ':') > 0 then
      SplitFirst(s, ':');
      Split(s, ':')[0]
    else s
  }

  /**
   GetImageTag: when the first ':' is past position 0, the second piece of the
   split — the text after the first ':' up to a second ':' or the end, not
   everything after the first ':'; otherwise the whole string.
   */
  function GetImageTag(s: string): (r: string)
    ensures Index(s, ':') > 0 ==>
      var i := Index(s, ':');
      && ':' !in r
      && HasPrefix(s[i + 1..], r)
      && (i + 1 + |r| == |s| || s[i + 1 + |r|] == ':')
    ensures Index(s, ':') <= 0 ==> r == s
  {
    if Index(s, ':') > 0 then
      SplitSecond(s, ':');
      Split(s, ':')[1]
    else s
  }

  /**
   Without a ':' past position 0 — no ':' at all, or only a leading one — the
   name and the tag are the same string, the input itself.
   */
  lemma NameAndTagCoincide(s: string)
    requires ':' !in s || s[0] == ':'
    ensures GetImageName(s) == s && GetImageTag(s) == s
  {
  }

  /** Joining a bare name and a tag with ':' and parsing back recovers both. */
  lemma {:induction false} ParseNameTag(name: string, tag: string)
    requires name != "" && ':' !in name && ':' !in tag
    ensures GetImageName(name + ":" + tag) == name
    ensures GetImageTag(name + ":" + tag) == tag
  {
    var s := name + ":" + tag;
    assert s[|name|] == ':' && s[..|name|] == name;
    assert Index(s, ':') == |name|;
    assert s[|name| + 1..] == tag;
    SplitJoin([name, tag], ':');
    assert Join([name, tag], ':') == s;
  }

  /** A reference with exactly one ':', past position 0, is its name, ':', and its tag. */
  lemma {:induction false} NameTagRoundTrip(s: string)
    requires multiset(s)[':'] == 1 && Index(s, ':') > 0
    ensures GetImageName(s) + ":" + GetImageTag(s) == s
  {
    var parts := Split(s, ':');
    assert |parts| == 2;
    assert Join(parts, ':') == parts[0] + ":" + parts[1];
  }

  /** The first ':' of `head + ":" + rest` is the one right after a colon-free `head`. */
  lemma FirstColonAfter(head: string, rest: string)
    requires ':' !in head
    ensures Index(head + ":" + rest, ':') == |head|
    ensures (head + ":" + rest)[..|head|] == head
    ensures (head + ":" + rest)[|head| + 1..] == rest
  {
    var s := head + ":" + rest;
    assert s[|head|] == ':' && s[..|head|] == head;
  }

  /** A second ':' ends the tag: whatever follows it is dropped. */
  lemma {:induction false} TagStopsAtSecondColon(name: string, tag: string, rest: string)
    requires name != "" && ':' !in name && ':' !in tag
    ensures GetImageName(name + ":" + (tag + ":" + rest)) == name
    ensures GetImageTag(name + ":" + (tag + ":" + rest)) == tag
  {
    var after := tag + ":" + rest;
    var s := name + ":" + after;
    FirstColonAfter(name, after);
    FirstColonAfter(tag, rest);
    assert Split(s, ':') == [name] + Split(after, ':');
    SplitFirst(after, ':');
  }

  /** For example, the tag of "repo:v1:extra" is "v1", not "v1:extra". */
  lemma TagOfThreePartReference()
    ensures GetImageTag("repo:v1:extra") == "v1"
  {
    assert "repo:v1:extra" == "repo" + ":" + ("v1" + ":" + "extra");
    TagStopsAtSecondColon("repo", "v1", "extra");
  }
}

=== FILE: registry.dfy ===
/**
 The registry tag check: build the tag-listing URL for an image, fetch the list of
 tags, and look for the image's tag in it without regard to letter case. The HTTP
 request, reading the body and decoding the JSON are one collaborator, `fetch`,
 that answers a URL with either the decoded tag list or an error message.
 */
module Registry {
  import opened Wrappers
  import opened GoStrings
  import opened ImageNames

  /** The error reported when no registry is configured. */
  const RegistryRequired := "Docker registry cannot empty"

  /** What the HTTP round trip and the JSON decoding produce for one URL. */
  datatype FetchReply = Tags(tags: seq<string>) | FetchFailed(message: string)

  /**
   The two spellings of image.go's URL, for a registry and a bare image name:
   "http://", the registry without one trailing '/', then "/2/", the name and
   "/tags/list". Only one trailing '/' is taken off, so "host//" keeps one.
   */
  function UrlFor(registry: string, bare: string): (url: string)
    ensures url == "http://" + WithoutTrailingSlash(registry) + "/2/" + bare + "/tags/list"
  {
    if HasSuffix(registry, "/") then
      "http://" + registry + "2/" + bare + "/tags/list"
    else
      "http://" + registry + "/2/" + bare + "/tags/list"
  }

  /** A registry ending in "//" loses only one '/', so the URL has "//2/" in it. */
  lemma UrlKeepsSecondSlash(host: string, bare: string)
    ensures UrlFor(host + "//", bare) == "http://" + host + "//2/" + bare + "/tags/list"
  {
  }

  /** The tag-listing URL of an image: its registry and its bare name (tag stripped). */
  function TagListUrl(n: ImageName): (url: string)
    ensures url == "http://" + WithoutTrailingSlash(n.dockerRegistry) + "/2/"
                   + GetImageName(n.name) + "/tags/list"
  {
    UrlFor(n.dockerRegistry, GetImageName(n.name))
  }

  /**
   The URL's path after "http://" is the fully qualified reference of the image
   "2/<bare>" in the same registry: one separator rule serves both.
   */
  lemma UrlIsQualifiedReference(registry: string, bare: string)
    requires registry != ""
    ensures UrlFor(registry, bare)
         == "http://" + GetFullImageName(ImageName("2/" + bare, registry)) + "/tags/list"
  {
    var full := GetFullImageName(ImageName("2/" + bare, registry));
    assert full == WithoutTrailingSlash(registry) + "/" + ("2/" + bare);
  }

  /** The same for the URL built from an image reference. */
  lemma TagListUrlIsQualifiedReference(n: ImageName)
    requires n.dockerRegistry != ""
    ensures TagListUrl(n)
         == "http://" + GetFullImageName(ImageName("2/" + GetImageName(n.name), n.dockerRegistry))
            + "/tags/list"
  {
    UrlIsQualifiedReference(n.dockerRegistry, GetImageName(n.name));
  }

  /** Some tag in `tags` equals `want` up to letter case. */
  predicate Listed(tags: seq<string>, want: string) {
    exists i :: 0 <= i < |tags| && EqualFold(tags[i], want)
  }

  /** The loop over the decoded tags: stops at the first case-insensitive match. */
  method FindTag(tags: seq<string>, want: string) returns (found: bool)
    ensures found <==> Listed(tags, want)
  {
    var i := 0;
    while i < |tags|
      invariant 0 <= i <= |tags|
      invariant forall j :: 0 <= j < i ==> !EqualFold(tags[j], want)
    {
      if EqualFold(tags[i], want) {
        return true;
      }
      i := i + 1;
    }
    return false;
  }

  /**
   CheckImagesExistInDockerRegistry: with no registry, (false, error) before any
   request; a failed fetch gives (false, its error); otherwise (true, nil) exactly
   when the tag of the name is listed, and (false, nil) when it is not.
   */
  method CheckImagesExistInDockerRegistry(n: ImageName, fetch: string -> FetchReply)
    returns (found: bool, err: Option<string>)
    ensures n.dockerRegistry == "" ==> !found && err == Some(RegistryRequired)
    ensures n.dockerRegistry != "" && fetch(TagListUrl(n)).FetchFailed? ==>
      !found && err == Some(fetch(TagListUrl(n)).message)
    ensures n.dockerRegistry != "" && fetch(TagListUrl(n)).Tags? ==>
      err == None && (found <==> Listed(fetch(TagListUrl(n)).tags, GetImageTag(n.name)))
  {
    if n.dockerRegistry == "" {
      return false, Some(RegistryRequired);
    }
    var url := TagListUrl(n);
    match fetch(url)
    case FetchFailed(message) =>
      return false, Some(message);
    case Tags(tags) =>
      found := FindTag(tags, GetImageTag(n.name));
      return found, None;
  }
}

=== FILE: waiter.dfy ===
/**
 WaitContainerDone, as the caller observes it. A worker queries the container's
 status, then every second queries it again, until a query fails or the status is
 terminal; the first such outcome is handed to the caller. The worker, the
 channels and the sleeping are not modelled: the status queries are given as the
 sequence of replies they receive, in order.
 */
module Waiter {
  import opened Wrappers
  import opened GoStrings

  /** One status query: the status string, and the error if the query failed. */
  datatype StatusReply = StatusReply(status: string, err: Option<string>)

  /**
   What the caller sees after the given replies: the outcome (nil or the query's
   error) and how many queries it took; or still waiting, if none of the replies
   ended the wait.
   */
  datatype WaitOutcome = Resolved(err: Option<string>, queries: nat) | StillWaiting

  /** A status after which the wait ends: "done" or "exited", in any letter case. */
  predicate Terminal(status: string) {
    EqualFold("done", status) || EqualFold("exited", status)
  }

  /** A reply after which the worker sleeps and queries again. */
  predicate Continues(reply: StatusReply) {
    reply.err == None && !Terminal(reply.status)
  }

  /**
   The caller gets the error of the first failed query, or nil at the first
   terminal status, whichever reply comes first; the error is checked before the
   status, and every reply before the deciding one was a successful, non-terminal
   query. Replies after the deciding one are never read.
   */
  function WaitContainerDone(replies: seq<StatusReply>): (w: WaitOutcome)
    ensures w.StillWaiting? <==> forall k :: 0 <= k < |replies| ==> Continues(replies[k])
    ensures w.Resolved? ==>
      && 1 <= w.queries <= |replies|
      && (forall k :: 0 <= k < w.queries - 1 ==> Continues(replies[k]))
      && var last := replies[w.queries - 1];
         if last.err.Some? then w.err == last.err else w.err == None && Terminal(last.status)
    decreases |replies|
  {
    if |replies| == 0 then StillWaiting
    else if replies[0].err.Some? then Resolved(replies[0].err, 1)
    else if Terminal(replies[0].status) then Resolved(None, 1)
    else
      match WaitContainerDone(replies[1..])
      case StillWaiting => StillWaiting
      case Resolved(err, queries) => Resolved(err, queries + 1)
  }

  /**
   Once the wait has ended, later replies change nothing: the caller's outcome is
   fixed by the first deciding reply.
   */
  lemma {:induction false} WaitIgnoresLaterReplies(replies: seq<StatusReply>, more: seq<StatusReply>)
    requires WaitContainerDone(replies).Resolved?
    ensures WaitContainerDone(replies + more) == WaitContainerDone(replies)
    decreases |replies|
  {
    assert (replies + more)[0] == replies[0];
    if replies[0].err.None? && !Terminal(replies[0].status) {
      assert (replies + more)[1..] == replies[1..] + more;
      WaitIgnoresLaterReplies(replies[1..], more);
    }
  }

  /** A failed query ends the wait with its error even when it also reports a terminal status. */
  lemma ErrorCheckedBeforeStatus(before: seq<StatusReply>, message: string, status: string)
    requires forall k :: 0 <= k < |before| ==> Continues(before[k])
    ensures WaitContainerDone(before + [StatusReply(status, Some(message))])
         == Resolved(Some(message), |before| + 1)
  {
    var rs := before + [StatusReply(status, Some(message))];
    assert !Continues(rs[|before|]);
    var w := WaitContainerDone(rs);
    assert w.Resolved?;
    assert forall k :: 0 <= k < |before| ==> rs[k] == before[k];
  }

  /**
   "created", then "running", then "EXITED": the wait ends with nil after the
   third query, that is after two one-second sleeps.
   */
  lemma CreatedRunningExited()
    ensures WaitContainerDone([StatusReply("created", None), StatusReply("running", None),
                               StatusReply("EXITED", None)])
         == Resolved(None, 3)
  {
    var rs := [StatusReply("created", None), StatusReply("running", None), StatusReply("EXITED", None)];
    assert !EqualFold("done", "created") && !EqualFold("exited", "created");
    assert !EqualFold("done", "running") && !EqualFold("exited", "running");
    assert EqualFold("exited", "EXITED");
    assert rs[1..] == [rs[1], rs[2]];
    assert rs[1..][1..] == [rs[2]];
  }
}

=== FILE: wrappers.dfy ===
/** Small failure-carrying datatypes shared by the rest of the model. */
module Wrappers {

  /** Go's "maybe an error": None plays the role of a nil error. */
  datatype Option<+T> = None | Some(value: T)
}
